=== FILE: README.md ===
# BeThere front end — a Dafny model

BeThere is an event-management web front end. It has guest and organizer
dashboards, a "My Events" page with search and status tabs, event cards with RSVP
buttons, a mock sign-in, and a navigation bar. Every piece of data is a hard-coded
list of events. The behaviour worth stating is spread through the React
components. This project pulls it out as pure functions over an immutable `Event`
record and proves what the components promise.

- `seqs.dfy` (`Seqs`): JavaScript's `Array.prototype.filter` as a stable filter.
  It comes with the subsequence relation and the lemmas the pages need:
  uniqueness, idempotence, monotonicity, nesting and agreeing tests.
- `text.dfy` (`Text`): `toLowerCase` (ASCII) and `includes`. `includes` is proved
  equal to "there is a position where the needle occurs".
- `events.dfy` (`Events`): the `Event` record, `Status`, `Role` and `Option`.
- `event_card.dfy` (`EventCard`): the card's decision table, from variant, RSVP
  status, budget and supplied callbacks to the badges, details and buttons shown.
  It also gives the effect of pressing each button.
- `my_events.dfy` (`MyEvents`): the search-and-tab filter, the per-tab counts
  (which ignore the search), the tab icons, the empty-state message, and the
  page's shipped invitations.
- `home.dfy` (`Home`): the role projection of the home page's events, "my
  events", the first three upcoming events, and the dashboard figures.
- `navigation.dfy` (`Navigation`): the menu for each role, highlighting, and
  the mobile menu toggle.
- `app.dfy` (`App`): the shell state (role, path), sign in, sign out, navigate,
  the no-op RSVP and details handlers, and the choice of screen.

Notes on what the code does:
- The code has no "none" tab. `StatusCountsPartition` counts events without a
  status separately.
- Search lower-cases with `toLowerCase`. The model lower-cases ASCII only (see
  Left out).
- The viewer's role is guest, organizer or none. "public" is only a card variant.

## Model

| member | source | states |
|---|---|---|
| Seqs.Filter | src/pages/MyEventsPage.tsx:76-84 | `filter` keeps its input's order: the result is a subsequence of the input, every kept element passes the test, and each passing element keeps all its copies while failing ones keep none |
| Seqs.FilterMembers | src/pages/MyEventsPage.tsx:76-84 | an element is in the filtered list exactly when it is in the input and passes the test |
| Seqs.FilterConcat | src/pages/MyEventsPage.tsx:76-84 | filtering a concatenation is concatenating the filtered parts |
| Seqs.FilterNoneOrAll | src/pages/MyEventsPage.tsx:76-84 | the filter keeps nothing exactly when no element passes, and everything exactly when every element passes |
| Seqs.FilterUnique | src/pages/MyEventsPage.tsx:76-84 | the contract above determines the filter: any subsequence with exactly those multiplicities is `Filter(p, s)` |
| Seqs.FilterIdempotent | src/pages/MyEventsPage.tsx:76-84 | filtering a filtered list again with the same test changes nothing |
| Seqs.FilterMonotone | src/pages/MyEventsPage.tsx:76-84 | a stricter test keeps a subsequence of what a looser test keeps |
| Text.Lower | src/pages/MyEventsPage.tsx:77-79 | lower-casing keeps the length, leaves no ASCII capital, turns each capital into its small letter and leaves every other character alone |
| Text.LowerIdempotent | src/pages/MyEventsPage.tsx:77-79 | lower-casing twice is lower-casing once |
| Text.Includes | src/pages/MyEventsPage.tsx:77-79 | `includes` is true exactly when the needle occurs at some position of the haystack |
| Text.IncludesEmpty | src/pages/MyEventsPage.tsx:77-79 | every string includes the empty string, so an empty search matches every field |
| MyEvents.FilteredEvents | src/pages/MyEventsPage.tsx:76-84 | the listed events are an order-preserving subsequence of the invitations; an event is listed iff the lower-cased term occurs in its lower-cased title, description or venue AND the tab is "all" or names its status; listed events keep their multiplicity |
| MyEvents.EmptySearchAllTabIsIdentity | src/pages/MyEventsPage.tsx:76-84 | an empty search on the "all" tab lists the invitations unchanged |
| MyEvents.FilterTwiceIsFilterOnce | src/pages/MyEventsPage.tsx:76-84 | filtering the listed events again with the same term and tab gives the same list |
| MyEvents.SearchNarrows | src/pages/MyEventsPage.tsx:76-84 | any search term lists a subsequence of what the empty term lists on the same tab |
| MyEvents.SearchIgnoresCase | src/pages/MyEventsPage.tsx:77-79 | lower-casing the term before searching lists the same events |
| MyEvents.TabCount | src/pages/MyEventsPage.tsx:86-89 | the "all" count is the number of invitations whatever their statuses; no count exceeds it |
| MyEvents.CountIsEmptySearchLength | src/pages/MyEventsPage.tsx:86-89 | a tab's count takes no search term and equals the length of the tab's list under an empty search |
| MyEvents.CountBoundsList | src/pages/MyEventsPage.tsx:86-89 | whatever is typed, a tab never lists more events than its badge counts |
| MyEvents.StatusCountsPartition | src/pages/MyEventsPage.tsx:86-89 | the confirmed, pending and declined counts plus the events without a status add up to the "all" count |
| MyEvents.StatusCountsSumToAll | src/pages/MyEventsPage.tsx:86-89 | when every event has a status, the three status counts add up to the "all" count |
| MyEvents.InvitationCounts | src/pages/MyEventsPage.tsx:19-89 | on the shipped invitations the badges read all 4, confirmed 2, pending 1, declined 1 |
| MyEvents.TabIcon | src/pages/MyEventsPage.tsx:91-102 | a status tab shows the same icon a card shows for that status; only the "all" tab shows the calendar |
| MyEvents.EmptyStateFor | src/pages/MyEventsPage.tsx:176-195 | "Discover Public Events" is offered iff the search box is empty; the heading is "No events found" iff a term is typed, and otherwise names the status tab |
| MyEvents.Page | src/pages/MyEventsPage.tsx:104-200 | the "all" badge is the number of invitations and the Confirmed, Pending and Declined badges are those tabs' counts; cards are drawn iff some event is listed, one guest card per listed event in order; otherwise the empty state for the term and tab |
| MyEvents.SelectingTab | src/pages/MyEventsPage.tsx:131 | choosing a tab keeps every count and lists that tab's events under the typed term; with an empty search box a listing appears exactly when the tab's badge is not zero |
| MyEvents.TypingKeepsCounts | src/pages/MyEventsPage.tsx:117-160 | typing in the search box leaves every tab count unchanged |
| MyEvents.PendingCardsOfferRsvp | src/pages/MyEventsPage.tsx:166-174 | every listed pending invitation offers Accept and Decline, because the page supplies `onRSVP` |
| EventCard.StatusIcon | src/components/EventCard.tsx:50-61 | an icon is shown iff a status is set, and it is never the calendar |
| EventCard.StatusBadge | src/components/EventCard.tsx:63-74 | a status badge is produced iff a status is set |
| EventCard.StatusMarksDistinct | src/components/EventCard.tsx:50-74 | different statuses get different badges and different icons |
| EventCard.Render | src/components/EventCard.tsx:84-188 | Private badge iff not public; status badge and icon iff guest variant with a status; budget iff organizer variant with a budget; organizer name iff not guest variant; Accept and Decline iff guest variant, `onRSVP` supplied and status pending; Guests and Edit iff organizer variant; View Details iff public variant, or guest variant with status confirmed |
| EventCard.DefaultVariantIsPublic | src/components/EventCard.tsx:36 | a card drawn without a variant is exactly the public card |
| EventCard.GuestRsvpExcludesDetails | src/components/EventCard.tsx:136-188 | a guest card never shows both the RSVP buttons and View Details |
| EventCard.ButtonsDistinct | src/components/EventCard.tsx:135-189 | a card shows at most three buttons and none twice |
| EventCard.Press | src/components/EventCard.tsx:136-188 | Accept emits `confirmed` and Decline emits `declined` for this card's event; no button emits `pending`; RSVPs come only from pending guest cards; Guests opens the guest list, Edit opens the editor and View Details opens the details, each exactly when its own callback is supplied; a missing optional callback makes its button do nothing |
| Home.ForRole | src/pages/HomePage.tsx:17-60 | the RSVP status is attached iff the viewer is a guest and the budget iff the viewer is an organizer; nothing else about the event changes |
| Home.HomeEvents | src/pages/HomePage.tsx:16-61 | the home page has three events, each with a status only for a guest and a budget only for an organizer |
| Home.Upcoming | src/pages/HomePage.tsx:63 | the upcoming events are a prefix of the list of length min(3, n) |
| Home.MyEventsOf | src/pages/HomePage.tsx:64-66 | for a guest: the in-order subsequence of confirmed or pending events, declined and unanswered ones excluded; for anyone else: every event |
| Home.ReduceIsSum | src/pages/HomePage.tsx:200 | the left fold `reduce((sum, e) => sum + e.currentGuests, acc)` equals acc plus the sum of guests |
| Home.SumGuestsNonNegative | src/pages/HomePage.tsx:200 | the guest total is non-negative when every event's `currentGuests` is |
| Home.TotalGuests | src/pages/HomePage.tsx:200 | the "Total Guests" figure is the sum of `currentGuests`, non-negative when each one is |
| Home.ConfirmedCount | src/pages/HomePage.tsx:248 | the "Confirmed" figure never exceeds the number of events it counts over; it is 0 exactly when none is confirmed and the full length exactly when all are |
| Home.ConfirmedCountSingle | src/pages/HomePage.tsx:248 | a single event counts one exactly when its status is confirmed |
| Home.ConfirmedCountConcat | src/pages/HomePage.tsx:248 | the count over two lists joined is the sum of their counts, so with the single-event lemma it is the number of confirmed events |
| Home.ConfirmedAmongOpenInvitations | src/pages/HomePage.tsx:64-66 | counting confirmed events over a guest's own events gives the same number as counting over all events |
| Home.Dashboard | src/pages/HomePage.tsx:63-287 | no role gives the landing page; a signed-in user gets the role's card header; an organizer gets Total Events = number of events and Total Guests = their guest sum; a guest gets My Events = number of open invitations and Confirmed = number of confirmed events, no larger than My Events; both get the first three events |
| Home.OrganizerFigures | src/pages/HomePage.tsx:16-204 | on the shipped events the organizer sees Total Events 3 and Total Guests 287 + 45 + 142 = 474 |
| Home.HomePage | src/pages/HomePage.tsx:14-287 | the page's three events projected for the role: landing page iff signed out; a signed-in user gets the role's card header; the organizer's dashboard counts 3 events and shows all three; the guest's shows all three and counts at most 3 as My Events; the cards are exactly `HomeEvents(role)`, so they carry a budget only for an organizer and a status only for a guest |
| Home.HeaderFor | src/pages/HomePage.tsx:259-266 | the cards are titled "Recent Events" and "View All" leads to "/events" exactly for an organizer; anyone else gets "Upcoming Events" and "/myevents" |
| Home.GuestFigures | src/pages/HomePage.tsx:16-252 | on the shipped events the guest sees My Events 3 and Confirmed 2 |
| Navigation.NavItems | src/components/ui/navigation.tsx:15-29 | the organizer gets the organizer menu, a guest or no role the guest menu; each menu has four items with distinct paths, starting at "/" |
| Navigation.ActiveItems | src/components/ui/navigation.tsx:48 | an item is highlighted iff the current path equals its path |
| Navigation.OneActiveItem | src/components/ui/navigation.tsx:46-61 | in a menu with distinct paths exactly one item is highlighted when the current path is in the menu, and none otherwise |
| Navigation.ChosenItemIsOnlyActive | src/components/ui/navigation.tsx:99-117 | after choosing an item, that item and no other is highlighted |
| Navigation.Toggle | src/components/ui/navigation.tsx:78 | the menu button flips the mobile menu's open state |
| Navigation.FirstToggleOpens | src/components/ui/navigation.tsx:13 | the mobile menu starts closed and one press of the menu button opens it |
| Navigation.ToggleTwice | src/components/ui/navigation.tsx:78 | pressing the menu button twice restores the state |
| Navigation.ChooseMobile | src/components/ui/navigation.tsx:107-110 | choosing an item of the open mobile menu navigates to its path and leaves the menu closed |
| Navigation.LogoutMobile | src/components/ui/navigation.tsx:121-124 | Logout in the open mobile menu signs out and leaves the menu closed |
| Navigation.ChooseDesktop | src/components/ui/navigation.tsx:54 | a desktop item navigates to its path and leaves the mobile menu alone |
| Navigation.LogoutDesktop | src/components/ui/navigation.tsx:65 | the desktop Logout button signs out and leaves the mobile menu alone |
| Navigation.ChooseBrand | src/components/ui/navigation.tsx:37 | the brand button navigates to "/" |
| App.Login | src/pages/Index.tsx:13-20 | signing in sets the chosen role and resets the path to "/" |
| App.Logout | src/pages/Index.tsx:22-29 | signing out clears the role and resets the path to "/" |
| App.Navigate | src/pages/Index.tsx:31-33 | navigating changes the path only; the role is kept |
| App.Rsvp | src/pages/Index.tsx:35-40 | an RSVP leaves role and path unchanged |
| App.ViewDetails | src/pages/Index.tsx:42-47 | opening details leaves role and path unchanged |
| App.RoleChangesOnlyBySigning | src/pages/Index.tsx:13-47 | any run of navigations, RSVPs and detail views keeps the role |
| App.LastSigningDecides | src/pages/Index.tsx:13-29 | a run ending with sign-in or sign-out reaches the same state from any start |
| App.Render | src/pages/Index.tsx:49-85 | no role and a path other than "/login" gives the landing page on every path; "/login" gives the sign-in page with or without a role; otherwise the shell, whose role is always set so the navigation bar is always drawn, with the dashboard on "/", the My Events page with its own invitations, an empty search and the "all" tab on "/myevents", and no content elsewhere |
| App.LoginShowsDashboard | src/pages/Index.tsx:13-85 | after signing in, the screen is the shell with that role's menu and dashboard |
| App.LogoutShowsLanding | src/pages/Index.tsx:22-51 | after signing out, the screen is the landing page |
| App.InitialIsLanding | src/pages/Index.tsx:10-51 | the app opens on the landing page |
| App.Dispatch | src/pages/Index.tsx:59-66 | the navigation bar's requests become Navigate and Logout |
| App.MobileChoiceNavigates | src/components/ui/navigation.tsx:99-117 | choosing a mobile menu item keeps the role, moves to the item's path, closes the menu, stays in the shell with the same menu, and highlights exactly the chosen item |
| App.MobileLogoutLands | src/components/ui/navigation.tsx:118-129 | mobile Logout signs out, closes the menu and shows the landing page |
| App.HandleCardEffect | src/pages/HomePage.tsx:272-281 | RSVP and details leave the state as it is; Edit and Guests navigate to the event's edit and guest-list paths; the role never changes |
| App.DashboardCardKeepsRole | src/pages/HomePage.tsx:272-281 | every button on a dashboard card has an effect, and none of them changes the role |

## Left out

- Rendering, CSS classes, icons as images, the hero image and animations: presentation only.
- `formatDate` (src/components/EventCard.tsx:42-48): it depends on JavaScript `Date` and locale formatting.
- The budget bar width (src/components/EventCard.tsx:124): floating-point division, undefined when the total is 0.
- The guest-count line `currentGuests / maxGuests` (src/components/EventCard.tsx:108-111): display text only.
- `LoginPage.tsx`: its only logic is a timer-driven loading flag before it calls `onLogin`. The model lets `App.Login` stand for the finished sign-in.
- Toast notifications (src/pages/Index.tsx:16-19, 25-28, 36-39, 43-46): side effects. The handlers are state-preserving no-ops.
- The "Discover Public Events" target (`window.location.href`, src/pages/MyEventsPage.tsx:191) and the "Filters" button, which has no handler: the model records only whether the Discover button is offered.
- The fixed link targets of the landing page and the dashboard's quick-action buttons (src/pages/HomePage.tsx:88, 97, 178, 217, 226, 235): constant paths with no logic. The "View All" target depends on the role and is modelled by `Home.HeaderFor`.
- Text.Lower: models `toLowerCase` on ASCII only, because Unicode case mapping tables are out of scope. Characters outside 'A'..'Z' are left unchanged.
- JavaScript numbers are modelled as unbounded integers. The shipped data are small integers, so addition is exact there.
- The search scenarios on the shipped invitations (query "tech", query "ballroom"): stating them means proving that a word does not occur in long literal strings, and that is not a behaviour of the code beyond `MyEvents.FilteredEvents`.
- The "My Events" page keeps its search term and tab in local state that starts empty on "all" each time the page is shown. `App.Render` states that it is drawn in that initial state, and `MyEvents.Page` covers every other state.
- The mobile menu's open state is local to the navigation bar. It is modelled in `Navigation`, apart from the shell state.

=== FILE: app.dfy ===
/**
 The app shell: the signed-in role and the current path, the transitions that
 change them, and the choice of what to draw for each state.
 */
module App {
  import opened Events
  import Home
  import MyEvents
  import Navigation
  import EventCard

  /** The shell's state. `role` is `None` while nobody is signed in. */
  datatype AppState = AppState(role: Option<Role>, path: string)

  const Initial := AppState(None, "/")

  /** Signing in with `role` starts at the home path, whatever came before. */
  function Login(s: AppState, role: Role): (t: AppState)
    ensures t.role == Some(role)
    ensures t.path == "/"
  {
    AppState(Some(role), "/")
  }

  /** Signing out clears the role and returns to the home path. */
  function Logout(s: AppState): (t: AppState)
    ensures t.role.None?
    ensures t.path == "/"
  {
    AppState(None, "/")
  }

  /** Navigating changes the path only. */
  function Navigate(s: AppState, path: string): (t: AppState)
    ensures t.role == s.role
    ensures t.path == path
  {
    s.(path := path)
  }

  /** An RSVP only raises a notification; the state is untouched. */
  function Rsvp(s: AppState, eventId: string, status: Status): (t: AppState)
    ensures t == s
  {
    s
  }

  /** Opening an event's details only raises a notification; the state is untouched. */
  function ViewDetails(s: AppState, eventId: string): (t: AppState)
    ensures t == s
  {
    s
  }

  datatype Action =
    | DoLogin(role: Role)
    | DoLogout
    | DoNavigate(path: string)
    | DoRsvp(eventId: string, status: Status)
    | DoViewDetails(eventId: string)

  predicate ChangesRole(a: Action) {
    a.DoLogin? || a.DoLogout?
  }

  function Step(s: AppState, a: Action): AppState {
    match a
    case DoLogin(role) => Login(s, role)
    case DoLogout => Logout(s)
    case DoNavigate(path) => Navigate(s, path)
    case DoRsvp(id, status) => Rsvp(s, id, status)
    case DoViewDetails(id) => ViewDetails(s, id)
  }

  /** The state after the actions, in order. */
  function Run(s: AppState, actions: seq<Action>): AppState
    decreases |actions|
  {
    if |actions| == 0 then s else Run(Step(s, actions[0]), actions[1..])
  }

  /** Only signing in and out change the role; any other run of actions keeps it. */
  lemma {:induction false} RoleChangesOnlyBySigning(s: AppState, actions: seq<Action>)
    requires forall i :: 0 <= i < |actions| ==> !ChangesRole(actions[i])
    ensures Run(s, actions).role == s.role
    decreases |actions|
  {
    if |actions| > 0 {
      RoleChangesOnlyBySigning(Step(s, actions[0]), actions[1..]);
    }
  }

  /** The state after a run that ends with signing in or out does not depend on where it started. */
  lemma {:induction false} LastSigningDecides(s: AppState, s': AppState, actions: seq<Action>)
    requires |actions| > 0 && ChangesRole(actions[|actions| - 1])
    ensures Run(s, actions) == Run(s', actions)
    decreases |actions|
  {
    if |actions| == 1 {
      assert Run(s, actions) == Run(Step(s, actions[0]), []);
      assert Run(s', actions) == Run(Step(s', actions[0]), []);
    } else {
      assert actions[1..][|actions[1..]| - 1] == actions[|actions| - 1];
      LastSigningDecides(Step(s, actions[0]), Step(s', actions[0]), actions[1..]);
    }
  }

  /** What the signed-in shell shows under the navigation bar. */
  datatype Content =
    | HomeContent(home: Home.HomeView)
    | MyEventsContent(invitations: MyEvents.View)
    | NoContent

  datatype Screen =
    | LandingScreen(home: Home.HomeView)
    | LoginScreen
    | Shell(role: Role, menu: seq<Navigation.NavItem>, currentPath: string, content: Content)

  /**
   The screen for state `s`. A signed-out visitor sees the landing page on every
   path but "/login"; "/login" shows the sign-in page even to a signed-in user;
   everything else is the shell, whose role is always set and whose content is
   the dashboard on "/", the invitations on "/myevents" and nothing elsewhere.
   */
  function Render(s: AppState): (sc: Screen)
    ensures sc.LoginScreen? <==> s.path == "/login"
    ensures sc.LandingScreen? <==> s.role.None? && s.path != "/login"
    ensures sc.LandingScreen? ==> sc.home == Home.Landing
    ensures sc.Shell? <==> s.role.Some? && s.path != "/login"
    ensures sc.Shell? ==>
      && s.role == Some(sc.role)
      && sc.menu == Navigation.NavItems(s.role)
      && sc.currentPath == s.path
      && (sc.content.HomeContent? <==> s.path == "/")
      && (sc.content.MyEventsContent? <==> s.path == "/myevents")
      && (sc.content.HomeContent? ==> !sc.content.home.Landing?)
      && (sc.content.MyEventsContent? ==>
            sc.content.invitations == MyEvents.Page(MyEvents.Invitations, MyEvents.InitialPageState))
  {
    if s.role.None? && s.path != "/login" then
      LandingScreen(Home.HomePage(None))
    else if s.path == "/login" then
      LoginScreen
    else
      var content :=
        if s.path == "/" then HomeContent(Home.HomePage(s.role))
        else if s.path == "/myevents" then
          MyEventsContent(MyEvents.Page(MyEvents.Invitations, MyEvents.InitialPageState))
        else NoContent;
      Shell(s.role.value, Navigation.NavItems(s.role), s.path, content)
  }

  /** Signing in shows that role's dashboard with its menu, from any state. */
  lemma LoginShowsDashboard(s: AppState, role: Role)
    ensures Render(Login(s, role)) ==
      Shell(role, Navigation.NavItems(Some(role)), "/", HomeContent(Home.HomePage(Some(role))))
  {
  }

  /** Signing out shows the landing page, from any state. */
  lemma LogoutShowsLanding(s: AppState)
    ensures Render(Logout(s)) == LandingScreen(Home.Landing)
  {
  }

  /** The app opens on the landing page. */
  lemma InitialIsLanding()
    ensures Render(Initial).LandingScreen?
  {
  }

  /** The shell acts on the navigation bar's requests. */
  function Dispatch(s: AppState, req: Navigation.Request): (t: AppState)
    ensures req.GoTo? ==> t == Navigate(s, req.path)
    ensures req.SignOut? ==> t == Logout(s)
  {
    match req
    case GoTo(path) => Navigate(s, path)
    case SignOut => Logout(s)
  }

  /**
   Choosing an item in the open mobile menu of a signed-in user keeps the role,
   moves to the item's path, closes the menu, and highlights exactly that item.
   */
  lemma MobileChoiceNavigates(s: AppState, m: Navigation.Menu, i: nat)
    requires s.role.Some? && m.open
    requires i < |Navigation.NavItems(s.role)|
    ensures var item := Navigation.NavItems(s.role)[i];
      var o := Navigation.ChooseMobile(m, item);
      var t := Dispatch(s, o.request);
      && t.role == s.role
      && t.path == item.path
      && !o.menu.open
      && Render(t).Shell? && Render(t).menu == Navigation.NavItems(s.role)
      && Navigation.ActiveItems(Navigation.NavItems(t.role), t.path) == [item]
  {
    Navigation.ChosenItemIsOnlyActive(Navigation.NavItems(s.role), i);
  }

  /** Logout in the open mobile menu signs out, closes the menu and shows the landing page. */
  lemma MobileLogoutLands(s: AppState, m: Navigation.Menu)
    requires m.open
    ensures var o := Navigation.LogoutMobile(m);
      var t := Dispatch(s, o.request);
      && t == AppState(None, "/")
      && !o.menu.open
      && Render(t).LandingScreen?
  {
  }

  /** The card variant the dashboard passes for a signed-in role. */
  function VariantFor(role: Role): EventCard.Variant {
    match role
    case Guest => EventCard.GuestVariant
    case Organizer => EventCard.OrganizerVariant
  }

  /** The dashboard supplies all four card callbacks. */
  const DashboardHandlers := EventCard.Handlers(true, true, true, true)

  /**
   The shell's answer to a card button: RSVPs and details only notify, Edit and
   Guests navigate to the event's edit and guest-list pages.
   */
  function HandleCardEffect(s: AppState, eff: EventCard.Effect): (t: AppState)
    ensures t.role == s.role
    ensures eff.SendRsvp? || eff.OpenDetails? ==> t == s
    ensures eff.OpenEditor? ==> t.path == "/events/" + eff.eventId + "/edit"
    ensures eff.OpenGuests? ==> t.path == "/events/" + eff.eventId + "/guests"
  {
    match eff
    case SendRsvp(id, status) => Rsvp(s, id, status)
    case OpenDetails(id) => ViewDetails(s, id)
    case OpenEditor(id) => Navigate(s, "/events/" + id + "/edit")
    case OpenGuests(id) => Navigate(s, "/events/" + id + "/guests")
  }

  /** No button on a dashboard card signs anyone in or out. */
  lemma DashboardCardKeepsRole(s: AppState, e: Event, b: EventCard.Button)
    requires s.role.Some?
    requires b in EventCard.Render(e, Some(VariantFor(s.role.value)), DashboardHandlers).buttons
    ensures var eff := EventCard.Press(e, Some(VariantFor(s.role.value)), DashboardHandlers, b);
      && eff.Some?
      && HandleCardEffect(s, eff.value).role == s.role
  {
  }
}

=== FILE: event_card.dfy ===
/**
 The event card: which badges, details and buttons it shows for a given variant,
 RSVP status, budget and set of supplied callbacks, and what pressing each button
 asks the page to do. Layout, styling and date formatting are not modelled.
 */
module EventCard {
  import opened Events

  /** Who the card is drawn for. */
  datatype Variant = GuestVariant | OrganizerVariant | PublicVariant

  /** The `variant` prop, which defaults to the public card when it is not given. */
  function VariantOf(variant: Option<Variant>): Variant {
    match variant
    case None => PublicVariant
    case Some(v) => v
  }

  datatype Icon = CheckCircle | XCircle | AlertCircle | CalendarIcon

  datatype Badge = PrivateBadge | RsvpBadge(caption: string)

  /** The icon next to the guest count; no icon when no status is set. */
  function StatusIcon(status: Option<Status>): (r: Option<Icon>)
    ensures r.Some? <==> status.Some?
    ensures r != Some(CalendarIcon)
  {
    match status
    case Some(Confirmed) => Some(CheckCircle)
    case Some(Declined) => Some(XCircle)
    case Some(Pending) => Some(AlertCircle)
    case None => None
  }

  /** The status badge in the card header; no badge when no status is set. */
  function StatusBadge(status: Option<Status>): (r: Option<Badge>)
    ensures r.Some? <==> status.Some?
    ensures r.Some? ==> r.value.RsvpBadge?
  {
    match status
    case Some(Confirmed) => Some(RsvpBadge("Confirmed"))
    case Some(Declined) => Some(RsvpBadge("Declined"))
    case Some(Pending) => Some(RsvpBadge("Pending"))
    case None => None
  }

  /** Different statuses are told apart by both the badge and the icon. */
  lemma StatusMarksDistinct(s: Status, t: Status)
    requires s != t
    ensures StatusBadge(Some(s)) != StatusBadge(Some(t))
    ensures StatusIcon(Some(s)) != StatusIcon(Some(t))
  {
  }

  /** Which optional callback props the caller supplied. */
  datatype Handlers = Handlers(onRsvp: bool, onViewDetails: bool, onEdit: bool, onViewGuests: bool)

  datatype Button = Accept | Decline | GuestsButton | EditButton | DetailsButton

  /** What a card shows besides the fields every card prints. */
  datatype Card = Card(
    badges: seq<Badge>,
    statusIcon: Option<Icon>,
    budget: Option<Budget>,
    organizer: Option<string>,
    buttons: seq<Button>)

  function OptionToSeq<T>(o: Option<T>): seq<T> {
    match o
    case None => []
    case Some(x) => [x]
  }

  /** The card drawn for `e` with the `variant` prop and the callbacks `h`. */
  function Render(e: Event, variant: Option<Variant>, h: Handlers): (c: Card)
    ensures var v := VariantOf(variant);
      && (PrivateBadge in c.badges <==> !e.isPublic)
      && (forall b :: b in c.badges && b.RsvpBadge? <==> v == GuestVariant && Some(b) == StatusBadge(e.rsvpStatus))
      && (c.statusIcon.Some? <==> v == GuestVariant && e.rsvpStatus.Some?)
      && (c.statusIcon.Some? ==> c.statusIcon == StatusIcon(e.rsvpStatus))
      && (c.budget.Some? <==> v == OrganizerVariant && e.budget.Some?)
      && (c.budget.Some? ==> c.budget == e.budget)
      && (c.organizer.Some? <==> v != GuestVariant)
      && (c.organizer.Some? ==> c.organizer.value == e.organizerName)
      && (Accept in c.buttons <==> v == GuestVariant && h.onRsvp && e.rsvpStatus == Some(Pending))
      && (Decline in c.buttons <==> Accept in c.buttons)
      && (GuestsButton in c.buttons <==> v == OrganizerVariant)
      && (EditButton in c.buttons <==> v == OrganizerVariant)
      && (DetailsButton in c.buttons <==>
            v == PublicVariant || (v == GuestVariant && e.rsvpStatus == Some(Confirmed)))
  {
    var v := VariantOf(variant);
    Card(
      (if !e.isPublic then [PrivateBadge] else [])
        + (if v == GuestVariant then OptionToSeq(StatusBadge(e.rsvpStatus)) else []),
      if v == GuestVariant then StatusIcon(e.rsvpStatus) else None,
      if v == OrganizerVariant then e.budget else None,
      if v != GuestVariant then Some(e.organizerName) else None,
      (if v == GuestVariant && h.onRsvp && e.rsvpStatus == Some(Pending) then [Accept, Decline] else [])
        + (if v == OrganizerVariant then [GuestsButton, EditButton] else [])
        + (if v == PublicVariant || (v == GuestVariant && e.rsvpStatus == Some(Confirmed))
           then [DetailsButton] else []))
  }

  /** Leaving the variant out draws exactly the public card. */
  lemma DefaultVariantIsPublic(e: Event, h: Handlers)
    ensures Render(e, None, h) == Render(e, Some(PublicVariant), h)
  {
  }

  /** A guest card offers either the RSVP buttons or View Details, never both. */
  lemma GuestRsvpExcludesDetails(e: Event, h: Handlers)
    ensures var c := Render(e, Some(GuestVariant), h);
      !(Accept in c.buttons && DetailsButton in c.buttons)
  {
  }

  /** No button appears twice on a card, and there are at most three of them. */
  lemma ButtonsDistinct(e: Event, variant: Option<Variant>, h: Handlers)
    ensures var bs := Render(e, variant, h).buttons;
      && |bs| <= 3
      && forall i, j :: 0 <= i < j < |bs| ==> bs[i] != bs[j]
  {
  }

  /** What pressing a card button asks of the page. */
  datatype Effect =
    | SendRsvp(eventId: string, choice: Status)
    | OpenGuests(eventId: string)
    | OpenEditor(eventId: string)
    | OpenDetails(eventId: string)

  /**
   Pressing button `b` on the card drawn for `e`. Accept and Decline call `onRSVP`;
   the other buttons call their optional callback, and do nothing when it is missing.
   */
  function Press(e: Event, variant: Option<Variant>, h: Handlers, b: Button): (r: Option<Effect>)
    requires b in Render(e, variant, h).buttons
    ensures r.Some? ==> r.value.eventId == e.id
    ensures r.Some? && r.value.SendRsvp? ==>
      && r.value.choice != Pending
      && e.rsvpStatus == Some(Pending)
      && VariantOf(variant) == GuestVariant
    ensures r == Some(SendRsvp(e.id, Confirmed)) <==> b == Accept
    ensures r == Some(SendRsvp(e.id, Declined)) <==> b == Decline
    ensures r.None? <==>
      || (b == GuestsButton && !h.onViewGuests)
      || (b == EditButton && !h.onEdit)
      || (b == DetailsButton && !h.onViewDetails)
    ensures r.Some? && r.value.OpenGuests? <==> b == GuestsButton && h.onViewGuests
    ensures r.Some? && r.value.OpenEditor? <==> b == EditButton && h.onEdit
    ensures r.Some? && r.value.OpenDetails? <==> b == DetailsButton && h.onViewDetails
  {
    match b
    case Accept => Some(SendRsvp(e.id, Confirmed))
    case Decline => Some(SendRsvp(e.id, Declined))
    case GuestsButton => if h.onViewGuests then Some(OpenGuests(e.id)) else None
    case EditButton => if h.onEdit then Some(OpenEditor(e.id)) else None
    case DetailsButton => if h.onViewDetails then Some(OpenDetails(e.id)) else None
  }
}

=== FILE: events.dfy ===
/**
 The `Event` record every page shows, and the small enumerations around it:
 the viewer's RSVP status and the signed-in user's role.
 */
module Events {

  datatype Option<T> = None | Some(value: T)

  /** A guest's answer to an invitation. */
  datatype Status = Confirmed | Declined | Pending

  /** The role a user signs in with. A signed-out user has no role (`None`). */
  datatype Role = Guest | Organizer

  datatype Budget = Budget(total: int, spent: int)

  /**
   One event. `rsvpStatus` is present only when the event is shown to a guest and
   `budget` only when it is shown to its organizer. JavaScript numbers are modelled
   as integers.
   */
  datatype Event = Event(
    id: string,
    title: string,
    description: string,
    date: string,
    time: string,
    venue: string,
    isPublic: bool,
    allowPlusOnes: bool,
    maxGuests: Option<int>,
    currentGuests: int,
    organizerName: string,
    rsvpStatus: Option<Status>,
    budget: Option<Budget>)

  /** The string the source stores for each status (`'confirmed'`, ...). */
  function StatusName(s: Status): string {
    match s
    case Confirmed => "confirmed"
    case Declined => "declined"
    case Pending => "pending"
  }

  predicate HasStatus(e: Event, s: Status) {
    e.rsvpStatus == Some(s)
  }

  function HasStatusBy(s: Status): Event -> bool {
    e => HasStatus(e, s)
  }
}

=== FILE: home.dfy ===
/**
 The home page. A signed-out visitor gets the landing page; a signed-in user gets a
 dashboard whose events, figures and cards depend on the role.
 */
module Home {
  import opened Events
  import opened Seqs

  /**
   The event as the home page shows it to `role`: the guest's RSVP status is
   attached only for a guest and the budget only for an organizer.
   */
  function ForRole(e: Event, role: Option<Role>, status: Status, budget: Budget): (r: Event)
    ensures r.rsvpStatus.Some? <==> role == Some(Guest)
    ensures r.rsvpStatus.Some? ==> r.rsvpStatus.value == status
    ensures r.budget.Some? <==> role == Some(Organizer)
    ensures r.budget.Some? ==> r.budget.value == budget
    ensures r.(rsvpStatus := e.rsvpStatus, budget := e.budget) == e
  {
    e.(rsvpStatus := if role == Some(Guest) then Some(status) else None,
       budget := if role == Some(Organizer) then Some(budget) else None)
  }

  const TechConference := Event("1", "Tech Conference 2024",
    "Annual technology conference featuring the latest innovations and networking opportunities.",
    "2024-03-15", "09:00 AM", "Convention Center Downtown", true, true, Some(500), 287,
    "TechCorp Events", None, None)

  const SummerBbq := Event("2", "Summer BBQ Party",
    "Join us for a fun summer BBQ with friends, family, and great food!",
    "2024-07-20", "05:00 PM", "Central Park Pavilion", false, true, None, 45,
    "Sarah Johnson", None, None)

  const WeddingReception := Event("3", "Wedding Reception",
    "Celebrating the union of two beautiful souls. Dinner and dancing to follow.",
    "2024-06-08", "06:30 PM", "Grand Ballroom Hotel", false, false, Some(150), 142,
    "Emma & Michael", None, None)

  /** The three events of the home page, as `role` sees them. */
  function HomeEvents(role: Option<Role>): (r: seq<Event>)
    ensures |r| == 3
    ensures forall i :: 0 <= i < |r| ==>
      && (r[i].rsvpStatus.Some? <==> role == Some(Guest))
      && (r[i].budget.Some? <==> role == Some(Organizer))
  {
    [ ForRole(TechConference, role, Confirmed, Budget(25000, 18500)),
      ForRole(SummerBbq, role, Pending, Budget(800, 450)),
      ForRole(WeddingReception, role, Confirmed, Budget(15000, 12800)) ]
  }

  /** `events.slice(0, 3)`: the first three events, or all of them when there are fewer. */
  function Upcoming(events: seq<Event>): (r: seq<Event>)
    ensures |r| == if |events| < 3 then |events| else 3
    ensures r <= events
  {
    events[..if |events| < 3 then |events| else 3]
  }

  /** An invitation the guest has accepted or not yet answered. */
  predicate IsOpenInvitation(e: Event) {
    HasStatus(e, Confirmed) || HasStatus(e, Pending)
  }

  function IsOpenInvitationBy(): Event -> bool {
    e => IsOpenInvitation(e)
  }

  /**
   The user's own events: for a guest the confirmed and pending invitations in
   their original order, for anyone else every event.
   */
  function MyEventsOf(role: Option<Role>, events: seq<Event>): (r: seq<Event>)
    ensures role == Some(Guest) ==>
      && IsSubsequence(r, events)
      && (forall e :: e in r <==> e in events && (HasStatus(e, Confirmed) || HasStatus(e, Pending)))
      && (forall e :: multiset(r)[e] == if IsOpenInvitation(e) then multiset(events)[e] else 0)
    ensures role != Some(Guest) ==> r == events
  {
    if role == Some(Guest) then
      FilterMembers(IsOpenInvitationBy(), events);
      Filter(IsOpenInvitationBy(), events)
    else events
  }

  /** The sum of `currentGuests`, as a reference for the dashboard's fold. */
  function SumGuests(events: seq<Event>): int
    decreases |events|
  {
    if |events| == 0 then 0 else events[0].currentGuests + SumGuests(events[1..])
  }

  /** `events.reduce((sum, e) => sum + e.currentGuests, acc)`: a left fold. */
  function ReduceGuests(acc: int, events: seq<Event>): int
    decreases |events|
  {
    if |events| == 0 then acc else ReduceGuests(acc + events[0].currentGuests, events[1..])
  }

  lemma {:induction false} ReduceIsSum(acc: int, events: seq<Event>)
    ensures ReduceGuests(acc, events) == acc + SumGuests(events)
    decreases |events|
  {
    if |events| > 0 {
      ReduceIsSum(acc + events[0].currentGuests, events[1..]);
    }
  }

  lemma {:induction false} SumGuestsNonNegative(events: seq<Event>)
    requires forall i :: 0 <= i < |events| ==> events[i].currentGuests >= 0
    ensures SumGuests(events) >= 0
    decreases |events|
  {
    if |events| > 0 {
      SumGuestsNonNegative(events[1..]);
    }
  }

  /** The "Total Guests" figure: the fold over the events, which is their sum of guests. */
  function TotalGuests(events: seq<Event>): (n: int)
    ensures n == SumGuests(events)
    ensures (forall i :: 0 <= i < |events| ==> events[i].currentGuests >= 0) ==> n >= 0
  {
    ReduceIsSum(0, events);
    if forall i :: 0 <= i < |events| ==> events[i].currentGuests >= 0 then
      SumGuestsNonNegative(events);
      ReduceGuests(0, events)
    else
      ReduceGuests(0, events)
  }

  /** The "Confirmed" figure: how many of the given events are confirmed. */
  function ConfirmedCount(events: seq<Event>): (n: nat)
    ensures n <= |events|
    ensures n == 0 <==> forall e :: e in events ==> !HasStatus(e, Confirmed)
    ensures n == |events| <==> forall e :: e in events ==> HasStatus(e, Confirmed)
  {
    FilterNoneOrAll(HasStatusBy(Confirmed), events);
    |Filter(HasStatusBy(Confirmed), events)|
  }

  /** A single event counts one exactly when it is confirmed. */
  lemma ConfirmedCountSingle(e: Event)
    ensures ConfirmedCount([e]) == if HasStatus(e, Confirmed) then 1 else 0
  {
    FilterLengthStep(HasStatusBy(Confirmed), [e]);
    assert [e][1..] == [];
  }

  /** The count over a concatenation is the sum of the counts over its parts. */
  lemma ConfirmedCountConcat(a: seq<Event>, b: seq<Event>)
    ensures ConfirmedCount(a + b) == ConfirmedCount(a) + ConfirmedCount(b)
  {
    FilterConcat(HasStatusBy(Confirmed), a, b);
  }

  datatype HomeView =
    | Landing
    | OrganizerDashboard(totalEvents: nat, totalGuests: int, header: EventsHeader, recent: seq<Event>)
    | GuestDashboard(myEvents: nat, confirmed: nat, header: EventsHeader, upcoming: seq<Event>)

  /** The home page for `role` over `events`. */
  function Dashboard(role: Option<Role>, events: seq<Event>): (v: HomeView)
    ensures v.Landing? <==> role.None?
    ensures !v.Landing? ==> v.header == HeaderFor(role)
    ensures role == Some(Organizer) ==>
      && v.OrganizerDashboard?
      && v.totalEvents == |events|
      && v.totalGuests == SumGuests(events)
      && v.recent == Upcoming(events)
    ensures role == Some(Guest) ==>
      && v.GuestDashboard?
      && v.myEvents == |MyEventsOf(role, events)|
      && v.confirmed <= v.myEvents
      && v.confirmed == ConfirmedCount(events)
      && v.upcoming == Upcoming(events)
  {
    match role
    case None => Landing
    case Some(Organizer) =>
      var mine := MyEventsOf(role, events);
      OrganizerDashboard(|mine|, TotalGuests(mine), HeaderFor(role), Upcoming(events))
    case Some(Guest) =>
      var mine := MyEventsOf(role, events);
      ConfirmedAmongOpenInvitations(events);
      GuestDashboard(|mine|, ConfirmedCount(mine), HeaderFor(role), Upcoming(events))
  }

  /** A guest's confirmed count is the same whether taken over their own events or over all events. */
  lemma ConfirmedAmongOpenInvitations(events: seq<Event>)
    ensures ConfirmedCount(MyEventsOf(Some(Guest), events)) == ConfirmedCount(events)
  {
    FilterNested(HasStatusBy(Confirmed), IsOpenInvitationBy(), events);
  }

  /**
   The home page as shipped: its three events projected for `role`, drawn as the
   landing page or the role's dashboard.
   */
  function HomePage(role: Option<Role>): (v: HomeView)
    ensures v.Landing? <==> role.None?
    ensures !v.Landing? ==> v.header == HeaderFor(role)
    ensures role == Some(Organizer) ==>
      && v.OrganizerDashboard? && v.totalEvents == 3 && v.recent == HomeEvents(role)
    ensures role == Some(Guest) ==>
      && v.GuestDashboard? && v.myEvents <= 3 && v.upcoming == HomeEvents(role)
  {
    DashboardOfThree(role, HomeEvents(role));
    Dashboard(role, HomeEvents(role))
  }

  /** The dashboard over three events shows them all, and counts at most three as a guest's own. */
  lemma DashboardOfThree(role: Option<Role>, events: seq<Event>)
    requires |events| == 3
    ensures var v := Dashboard(role, events);
      && (v.OrganizerDashboard? ==> v.totalEvents == 3 && v.recent == events)
      && (v.GuestDashboard? ==> v.myEvents <= 3 && v.upcoming == events)
  {
    assert Upcoming(events) == events;
  }

  /** The header over the dashboard's event cards: its title and where "View All" leads. */
  datatype EventsHeader = EventsHeader(title: string, viewAll: string)

  /**
   An organizer's cards are "Recent Events" and "View All" opens their event list;
   anyone else's are "Upcoming Events" and "View All" opens their invitations.
   */
  function HeaderFor(role: Option<Role>): (h: EventsHeader)
    ensures h.title == "Recent Events" <==> role == Some(Organizer)
    ensures h.title != "Recent Events" ==> h.title == "Upcoming Events"
    ensures h.viewAll == "/events" <==> role == Some(Organizer)
    ensures h.viewAll != "/events" ==> h.viewAll == "/myevents"
  {
    if role == Some(Organizer) then EventsHeader("Recent Events", "/events")
    else EventsHeader("Upcoming Events", "/myevents")
  }

  /** Sum and confirmed count over three events, one event at a time. */
  lemma FiguresOfThree(a: Event, b: Event, c: Event)
    ensures SumGuests([a, b, c]) == a.currentGuests + b.currentGuests + c.currentGuests
    ensures ConfirmedCount([a, b, c])
         == (if HasStatus(a, Confirmed) then 1 else 0) + (if HasStatus(b, Confirmed) then 1 else 0)
          + (if HasStatus(c, Confirmed) then 1 else 0)
  {
    var s := [a, b, c];
    assert s[1..] == [b, c] && s[1..][1..] == [c] && s[1..][1..][1..] == [];
    assert SumGuests([c]) == c.currentGuests + SumGuests([]);
    assert SumGuests([b, c]) == b.currentGuests + SumGuests([c]);
    assert SumGuests(s) == a.currentGuests + SumGuests([b, c]);
    FilterLengthStep(HasStatusBy(Confirmed), s);
    FilterLengthStep(HasStatusBy(Confirmed), s[1..]);
    FilterLengthStep(HasStatusBy(Confirmed), s[1..][1..]);
  }

  /** On the shipped events the organizer sees Total Events 3 and Total Guests 287 + 45 + 142 = 474. */
  lemma OrganizerFigures()
    ensures HomePage(Some(Organizer)).totalEvents == 3
    ensures HomePage(Some(Organizer)).totalGuests == 474
  {
    var role := Some(Organizer);
    FiguresOfThree(ForRole(TechConference, role, Confirmed, Budget(25000, 18500)),
      ForRole(SummerBbq, role, Pending, Budget(800, 450)),
      ForRole(WeddingReception, role, Confirmed, Budget(15000, 12800)));
  }

  /** A guest's figures over three events answered confirmed, pending and confirmed. */
  lemma GuestDashboardOfThree(events: seq<Event>)
    requires |events| == 3
    requires HasStatus(events[0], Confirmed) && HasStatus(events[1], Pending) && HasStatus(events[2], Confirmed)
    ensures Dashboard(Some(Guest), events).myEvents == 3
    ensures Dashboard(Some(Guest), events).confirmed == 2
  {
    assert events == [events[0], events[1], events[2]];
    assert MyEventsOf(Some(Guest), events) == events by {
      FilterKeepsAll(IsOpenInvitationBy(), events);
    }
    FiguresOfThree(events[0], events[1], events[2]);
  }

  /** On the shipped events the guest sees My Events 3 and Confirmed 2. */
  lemma GuestFigures()
    ensures HomePage(Some(Guest)).myEvents == 3
    ensures HomePage(Some(Guest)).confirmed == 2
  {
    var guest := HomeEvents(Some(Guest));
    assert HasStatus(guest[0], Confirmed) && HasStatus(guest[1], Pending) && HasStatus(guest[2], Confirmed);
    GuestDashboardOfThree(guest);
  }
}

=== FILE: my_events.dfy ===
/**
 The "My Events" page: a search box and four status tabs over the guest's
 invitations. The list respects both the search term and the tab; the count on
 each tab respects only the tab, so the counts stay put while the user types.
 */
module MyEvents {
  import opened Events
  import opened Seqs
  import Text
  import EventCard

  /** The active tab. The source keeps it as the string "all", "confirmed", "pending" or "declined". */
  datatype Tab = AllTab | StatusTab(status: Status)

  /** The search rule: the lower-cased term occurs in the lower-cased title, description or venue. */
  predicate MatchesSearch(e: Event, term: string) {
    || Text.IncludesIgnoringCase(e.title, term)
    || Text.IncludesIgnoringCase(e.description, term)
    || Text.IncludesIgnoringCase(e.venue, term)
  }

  /** The tab rule: the "all" tab, or a tab naming the event's own status. */
  predicate MatchesTab(e: Event, tab: Tab) {
    tab.AllTab? || HasStatus(e, tab.status)
  }

  predicate Shown(e: Event, term: string, tab: Tab) {
    MatchesSearch(e, term) && MatchesTab(e, tab)
  }

  function ShownBy(term: string, tab: Tab): Event -> bool {
    e => Shown(e, term, tab)
  }

  /** The events listed under `tab` while the search box holds `term`. */
  function FilteredEvents(events: seq<Event>, term: string, tab: Tab): (r: seq<Event>)
    ensures IsSubsequence(r, events)
    ensures forall e :: e in r <==> e in events && MatchesSearch(e, term) && MatchesTab(e, tab)
    ensures forall e :: multiset(r)[e] == if Shown(e, term, tab) then multiset(events)[e] else 0
  {
    FilterMembers(ShownBy(term, tab), events);
    Filter(ShownBy(term, tab), events)
  }

  /** The number on a tab's badge: every event for "all", else the events with that status. */
  function TabCount(events: seq<Event>, tab: Tab): (n: nat)
    ensures tab.AllTab? ==> n == |events|
    ensures n <= |events|
  {
    match tab
    case AllTab => |events|
    case StatusTab(s) => |Filter(HasStatusBy(s), events)|
  }

  /**
   The count takes no search term: it is the length of the tab's list when the
   search box is empty, whatever is typed later.
   */
  lemma CountIsEmptySearchLength(events: seq<Event>, tab: Tab)
    ensures TabCount(events, tab) == |FilteredEvents(events, "", tab)|
  {
    match tab
    case AllTab => EmptySearchAllTabIsIdentity(events);
    case StatusTab(_) => EmptySearchIsTabOnly(events, tab);
  }

  /** With an empty search box a status tab lists exactly the events with that status. */
  lemma EmptySearchIsTabOnly(events: seq<Event>, tab: Tab)
    requires tab.StatusTab?
    ensures FilteredEvents(events, "", tab) == Filter(HasStatusBy(tab.status), events)
  {
    forall i | 0 <= i < |events|
      ensures ShownBy("", tab)(events[i]) == HasStatusBy(tab.status)(events[i])
    {
      EmptyTermMatches(events[i]);
    }
    FilterAgreeing(ShownBy("", tab), HasStatusBy(tab.status), events);
  }

  /** Whatever the search term, a tab never lists more events than its badge counts. */
  lemma CountBoundsList(events: seq<Event>, term: string, tab: Tab)
    ensures |FilteredEvents(events, term, tab)| <= TabCount(events, tab)
  {
    SearchNarrows(events, term, tab);
    CountIsEmptySearchLength(events, tab);
    SubsequenceMultiset(FilteredEvents(events, term, tab), FilteredEvents(events, "", tab));
  }

  /** With an empty search box every event passes the search rule. */
  lemma EmptyTermMatches(e: Event)
    ensures MatchesSearch(e, "")
  {
    assert Text.Lower("") == "";
    Text.IncludesEmpty(Text.Lower(e.title));
  }

  /** An empty search on the "all" tab lists every event, in order. */
  lemma EmptySearchAllTabIsIdentity(events: seq<Event>)
    ensures FilteredEvents(events, "", AllTab) == events
  {
    forall i | 0 <= i < |events| ensures ShownBy("", AllTab)(events[i]) {
      EmptyTermMatches(events[i]);
    }
    FilterKeepsAll(ShownBy("", AllTab), events);
  }

  /** Filtering the filtered list again with the same term and tab changes nothing. */
  lemma FilterTwiceIsFilterOnce(events: seq<Event>, term: string, tab: Tab)
    ensures FilteredEvents(FilteredEvents(events, term, tab), term, tab) == FilteredEvents(events, term, tab)
  {
    FilterIdempotent(ShownBy(term, tab), events);
  }

  /** Typing a search term only removes events from the tab's list; it never reorders them. */
  lemma SearchNarrows(events: seq<Event>, term: string, tab: Tab)
    ensures IsSubsequence(FilteredEvents(events, term, tab), FilteredEvents(events, "", tab))
  {
    forall i | 0 <= i < |events| ensures ShownBy(term, tab)(events[i]) ==> ShownBy("", tab)(events[i]) {
      EmptyTermMatches(events[i]);
    }
    FilterMonotone(ShownBy(term, tab), ShownBy("", tab), events);
  }

  /** The search is case-insensitive: lower-casing the term first lists the same events. */
  lemma SearchIgnoresCase(events: seq<Event>, term: string, tab: Tab)
    ensures FilteredEvents(events, Text.Lower(term), tab) == FilteredEvents(events, term, tab)
  {
    forall i | 0 <= i < |events|
      ensures ShownBy(Text.Lower(term), tab)(events[i]) == ShownBy(term, tab)(events[i])
    {
      var e := events[i];
      Text.IgnoringCaseOfLowered(e.title, term);
      Text.IgnoringCaseOfLowered(e.description, term);
      Text.IgnoringCaseOfLowered(e.venue, term);
    }
    FilterAgreeing(ShownBy(Text.Lower(term), tab), ShownBy(term, tab), events);
  }

  predicate HasNoStatus(e: Event) {
    e.rsvpStatus.None?
  }

  function HasNoStatusBy(): Event -> bool {
    e => HasNoStatus(e)
  }

  /** One step of a status count: the first event adds one exactly when it has that status. */
  lemma CountStep(events: seq<Event>, s: Status)
    requires |events| > 0
    ensures TabCount(events, StatusTab(s))
         == (if HasStatus(events[0], s) then 1 else 0) + TabCount(events[1..], StatusTab(s))
  {
    FilterLengthStep(HasStatusBy(s), events);
  }

  /**
   The three status tabs and the events without a status split the "all" count:
   every event is counted by exactly one of them.
   */
  lemma {:induction false} StatusCountsPartition(events: seq<Event>)
    ensures TabCount(events, StatusTab(Confirmed)) + TabCount(events, StatusTab(Pending))
          + TabCount(events, StatusTab(Declined)) + |Filter(HasNoStatusBy(), events)|
         == TabCount(events, AllTab)
    decreases |events|
  {
    if |events| > 0 {
      var e := events[0];
      StatusCountsPartition(events[1..]);
      CountStep(events, Confirmed);
      CountStep(events, Pending);
      CountStep(events, Declined);
      FilterLengthStep(HasNoStatusBy(), events);
      assert HasNoStatusBy()(e) == HasNoStatus(e);
      match e.rsvpStatus
      case None =>
      case Some(Confirmed) =>
      case Some(Pending) =>
      case Some(Declined) =>
    }
  }

  /** When every event carries a status, the three status counts add up to the "all" count. */
  lemma StatusCountsSumToAll(events: seq<Event>)
    requires forall i :: 0 <= i < |events| ==> events[i].rsvpStatus.Some?
    ensures TabCount(events, StatusTab(Confirmed)) + TabCount(events, StatusTab(Pending))
          + TabCount(events, StatusTab(Declined)) == TabCount(events, AllTab)
  {
    StatusCountsPartition(events);
    assert forall e :: e in events ==> !HasNoStatusBy()(e);
    assert Filter(HasNoStatusBy(), events) == [];
  }

  const TechConference := Event("1", "Tech Conference 2024",
    "Annual technology conference featuring the latest innovations and networking opportunities.",
    "2024-03-15", "09:00 AM", "Convention Center Downtown", true, true, Some(500), 287,
    "TechCorp Events", Some(Confirmed), None)

  const SummerBbq := Event("2", "Summer BBQ Party",
    "Join us for a fun summer BBQ with friends, family, and great food!",
    "2024-07-20", "05:00 PM", "Central Park Pavilion", false, true, None, 45,
    "Sarah Johnson", Some(Pending), None)

  const WeddingReception := Event("3", "Wedding Reception",
    "Celebrating the union of two beautiful souls. Dinner and dancing to follow.",
    "2024-06-08", "06:30 PM", "Grand Ballroom Hotel", false, false, Some(150), 142,
    "Emma & Michael", Some(Confirmed), None)

  const BookClub := Event("4", "Book Club Meeting",
    "Monthly discussion of \"The Great Gatsby\" - bring your insights and questions!",
    "2024-04-10", "07:00 PM", "Community Library", false, false, None, 12,
    "Reading Circle", Some(Declined), None)

  /** The invitations the page shows. */
  const Invitations: seq<Event> := [TechConference, SummerBbq, WeddingReception, BookClub]

  /** A status count over four events, one event at a time. */
  lemma CountOfFour(a: Event, b: Event, c: Event, d: Event, st: Status)
    ensures TabCount([a, b, c, d], StatusTab(st))
         == (if HasStatus(a, st) then 1 else 0) + (if HasStatus(b, st) then 1 else 0)
          + (if HasStatus(c, st) then 1 else 0) + (if HasStatus(d, st) then 1 else 0)
  {
    var s := [a, b, c, d];
    CountStep(s, st);
    assert s[1..] == [b, c, d];
    CountStep([b, c, d], st);
    assert [b, c, d][1..] == [c, d];
    CountStep([c, d], st);
    assert [c, d][1..] == [d];
    CountStep([d], st);
    assert [d][1..] == [];
  }

  /** The badges on the shipped invitations read all 4, confirmed 2, pending 1, declined 1. */
  lemma InvitationCounts()
    ensures TabCount(Invitations, AllTab) == 4
    ensures TabCount(Invitations, StatusTab(Confirmed)) == 2
    ensures TabCount(Invitations, StatusTab(Pending)) == 1
    ensures TabCount(Invitations, StatusTab(Declined)) == 1
  {
    assert TabCount(Invitations, StatusTab(Confirmed)) == 2 by {
      CountOfFour(TechConference, SummerBbq, WeddingReception, BookClub, Confirmed);
    }
    assert TabCount(Invitations, StatusTab(Pending)) == 1 by {
      CountOfFour(TechConference, SummerBbq, WeddingReception, BookClub, Pending);
    }
    assert TabCount(Invitations, StatusTab(Declined)) == 1 by {
      CountOfFour(TechConference, SummerBbq, WeddingReception, BookClub, Declined);
    }
  }

  /** The icon on each tab; a status tab uses the same icon as a card with that status. */
  function TabIcon(tab: Tab): (icon: EventCard.Icon)
    ensures tab.StatusTab? ==> Some(icon) == EventCard.StatusIcon(Some(tab.status))
    ensures tab.AllTab? <==> icon == EventCard.CalendarIcon
  {
    match tab
    case StatusTab(Confirmed) => EventCard.CheckCircle
    case StatusTab(Pending) => EventCard.AlertCircle
    case StatusTab(Declined) => EventCard.XCircle
    case AllTab => EventCard.CalendarIcon
  }

  /** The page's own state: what is typed in the search box and which tab is active. */
  datatype PageState = PageState(term: string, tab: Tab)

  const InitialPageState := PageState("", AllTab)

  function TypeSearch(st: PageState, term: string): PageState {
    st.(term := term)
  }

  function SelectTab(st: PageState, tab: Tab): PageState {
    st.(tab := tab)
  }

  datatype TabCounts = TabCounts(all: nat, confirmed: nat, pending: nat, declined: nat)

  function Counts(events: seq<Event>): TabCounts {
    TabCounts(
      TabCount(events, AllTab),
      TabCount(events, StatusTab(Confirmed)),
      TabCount(events, StatusTab(Pending)),
      TabCount(events, StatusTab(Declined)))
  }

  /** What the tab body shows: one guest card per listed event, or an empty-state message. */
  datatype Body =
    | Listing(cards: seq<EventCard.Card>)
    | EmptyState(heading: string, hint: string, discover: bool)

  /**
   The empty-state message. A search term always gives "No events found"; without
   one the message names the tab, and only then is "Discover Public Events" offered.
   */
  function EmptyStateFor(term: string, tab: Tab): (b: Body)
    ensures b.EmptyState?
    ensures b.discover <==> term == ""
    ensures b.heading == "No events found" <==> term != ""
    ensures term == "" && tab.StatusTab? ==> b.heading == "No " + StatusName(tab.status) + " events"
  {
    var heading :=
      if term != "" then "No events found"
      else "No " + (if tab.AllTab? then "" else StatusName(tab.status)) + " events";
    var hint :=
      if term != "" then "Try adjusting your search terms"
      else if tab.AllTab? then "You haven't been invited to any events yet"
      else "You don't have any " + StatusName(tab.status) + " event invitations";
    EmptyState(heading, hint, term == "")
  }

  /** The cards get the guest variant, `onRSVP` and `onViewDetails`, and no edit or guest-list callbacks. */
  const CardHandlers := EventCard.Handlers(true, true, false, false)

  datatype View = View(counts: TabCounts, body: Body)

  /** The page drawn for `events` in state `st`. */
  function Page(events: seq<Event>, st: PageState): (v: View)
    ensures v.counts.all == |events|
    ensures v.counts.confirmed == TabCount(events, StatusTab(Confirmed))
    ensures v.counts.pending == TabCount(events, StatusTab(Pending))
    ensures v.counts.declined == TabCount(events, StatusTab(Declined))
    ensures v.body.Listing? <==> |FilteredEvents(events, st.term, st.tab)| > 0
    ensures v.body.Listing? ==>
      var shown := FilteredEvents(events, st.term, st.tab);
      && |v.body.cards| == |shown|
      && forall i :: 0 <= i < |shown| ==>
           v.body.cards[i] == EventCard.Render(shown[i], Some(EventCard.GuestVariant), CardHandlers)
    ensures v.body.EmptyState? ==> v.body == EmptyStateFor(st.term, st.tab)
  {
    var shown := FilteredEvents(events, st.term, st.tab);
    var body :=
      if |shown| > 0 then
        Listing(seq(|shown|, i requires 0 <= i < |shown| =>
          EventCard.Render(shown[i], Some(EventCard.GuestVariant), CardHandlers)))
      else EmptyStateFor(st.term, st.tab);
    View(Counts(events), body)
  }

  /** Typing in the search box leaves every tab count as it was. */
  lemma TypingKeepsCounts(events: seq<Event>, st: PageState, term: string)
    ensures Page(events, TypeSearch(st, term)).counts == Page(events, st).counts
  {
  }

  /**
   Choosing a tab keeps every tab count and lists that tab's events under the typed
   term; with an empty search box the tab shows a listing exactly when its badge is
   not zero.
   */
  lemma SelectingTab(events: seq<Event>, st: PageState, tab: Tab)
    ensures var v := Page(events, SelectTab(st, tab));
      && v.counts == Page(events, st).counts
      && (v.body.Listing? <==> |FilteredEvents(events, st.term, tab)| > 0)
      && (st.term == "" ==> (v.body.Listing? <==> TabCount(events, tab) > 0))
  {
    CountIsEmptySearchLength(events, tab);
  }

  /** Every pending invitation listed on the page offers Accept and Decline. */
  lemma PendingCardsOfferRsvp(events: seq<Event>, st: PageState, i: nat)
    requires Page(events, st).body.Listing?
    requires i < |FilteredEvents(events, st.term, st.tab)|
    requires FilteredEvents(events, st.term, st.tab)[i].rsvpStatus == Some(Pending)
    ensures var c := Page(events, st).body.cards[i];
      EventCard.Accept in c.buttons && EventCard.Decline in c.buttons
  {
  }
}

=== FILE: navigation.dfy ===
/**
 The navigation bar shown to a signed-in user: a menu chosen by role, the item for
 the current path highlighted, and a mobile menu that opens and closes.
 */
module Navigation {
  import opened Events
  import opened Seqs

  datatype NavItem = NavItem(path: string, caption: string)

  const GuestItems: seq<NavItem> := [
    NavItem("/", "Home"),
    NavItem("/myevents", "My Events"),
    NavItem("/events/public", "Browse Events"),
    NavItem("/qr", "My QR")
  ]

  const OrganizerItems: seq<NavItem> := [
    NavItem("/", "Dashboard"),
    NavItem("/events/create", "Create Event"),
    NavItem("/events", "My Events"),
    NavItem("/settings", "Settings")
  ]

  /** No two items of a menu lead to the same path. */
  predicate DistinctPaths(items: seq<NavItem>) {
    forall i, j :: 0 <= i < j < |items| ==> items[i].path != items[j].path
  }

  /** The menu for `role`: the organizer menu for an organizer, the guest menu otherwise. */
  function NavItems(role: Option<Role>): (items: seq<NavItem>)
    ensures |items| == 4
    ensures DistinctPaths(items)
    ensures items[0].path == "/"
    ensures role == Some(Organizer) <==> items == OrganizerItems
    ensures role != Some(Organizer) <==> items == GuestItems
  {
    if role == Some(Organizer) then OrganizerItems else GuestItems
  }

  /** An item is highlighted exactly when the current path is its path. */
  predicate IsActive(item: NavItem, currentPath: string) {
    currentPath == item.path
  }

  function ActiveAt(currentPath: string): NavItem -> bool {
    item => IsActive(item, currentPath)
  }

  /** The highlighted items of a menu, in menu order. */
  function ActiveItems(items: seq<NavItem>, currentPath: string): (r: seq<NavItem>)
    ensures forall item :: item in r <==> item in items && item.path == currentPath
  {
    FilterMembers(ActiveAt(currentPath), items);
    Filter(ActiveAt(currentPath), items)
  }

  /**
   In a menu whose paths are distinct, one item is highlighted when the current
   path belongs to the menu and none otherwise.
   */
  lemma {:induction false} OneActiveItem(items: seq<NavItem>, currentPath: string)
    requires DistinctPaths(items)
    ensures |ActiveItems(items, currentPath)| == if exists i :: 0 <= i < |items| && items[i].path == currentPath then 1 else 0
    decreases |items|
  {
    if |items| > 0 {
      var tail := items[1..];
      assert DistinctPaths(tail) by {
        forall i, j | 0 <= i < j < |tail| ensures tail[i].path != tail[j].path {
          assert tail[i] == items[i + 1] && tail[j] == items[j + 1];
        }
      }
      OneActiveItem(tail, currentPath);
      if items[0].path == currentPath {
        assert forall i :: 0 <= i < |tail| ==> tail[i].path != currentPath by {
          forall i | 0 <= i < |tail| ensures tail[i].path != currentPath {
            assert tail[i] == items[i + 1];
          }
        }
        assert ActiveItems(items, currentPath) == [items[0]] + ActiveItems(tail, currentPath);
      } else {
        assert ActiveItems(items, currentPath) == ActiveItems(tail, currentPath);
        if i :| 0 <= i < |items| && items[i].path == currentPath {
          assert i > 0 && tail[i - 1] == items[i];
        }
        if i :| 0 <= i < |tail| && tail[i].path == currentPath {
          assert items[i + 1] == tail[i];
        }
      }
    }
  }

  /** Choosing an item of a menu with distinct paths highlights that item and no other. */
  lemma ChosenItemIsOnlyActive(items: seq<NavItem>, i: nat)
    requires DistinctPaths(items) && i < |items|
    ensures ActiveItems(items, items[i].path) == [items[i]]
  {
    var act := ActiveItems(items, items[i].path);
    OneActiveItem(items, items[i].path);
    assert |act| == 1;
    assert act[0] in act;
    var k :| 0 <= k < |items| && items[k] == act[0];
    assert k == i;
  }

  /** The mobile menu's open/closed state; it starts closed. */
  datatype Menu = Menu(open: bool)

  const InitialMenu := Menu(false)

  /** The menu button flips the mobile menu. */
  function Toggle(m: Menu): (r: Menu)
    ensures r.open != m.open
  {
    Menu(!m.open)
  }

  /** The mobile items are hidden at first and appear after one press of the menu button. */
  lemma FirstToggleOpens()
    ensures !InitialMenu.open && Toggle(InitialMenu).open
  {
  }

  lemma ToggleTwice(m: Menu)
    ensures Toggle(Toggle(m)) == m
  {
  }

  /** What a click asks of the app shell: go to a path, or sign out. */
  datatype Request = GoTo(path: string) | SignOut

  datatype Outcome = Outcome(menu: Menu, request: Request)

  /** Choosing an item of the open mobile menu navigates to it and closes the menu. */
  function ChooseMobile(m: Menu, item: NavItem): (o: Outcome)
    requires m.open
    ensures !o.menu.open
    ensures o.request == GoTo(item.path)
  {
    Outcome(Menu(false), GoTo(item.path))
  }

  /** Logout in the open mobile menu signs out and closes the menu. */
  function LogoutMobile(m: Menu): (o: Outcome)
    requires m.open
    ensures !o.menu.open
    ensures o.request == SignOut
  {
    Outcome(Menu(false), SignOut)
  }

  /** A desktop item navigates and leaves the mobile menu as it was. */
  function ChooseDesktop(m: Menu, item: NavItem): (o: Outcome)
    ensures o.menu == m
    ensures o.request == GoTo(item.path)
  {
    Outcome(m, GoTo(item.path))
  }

  /** The desktop Logout button signs out and leaves the mobile menu as it was. */
  function LogoutDesktop(m: Menu): (o: Outcome)
    ensures o.menu == m
    ensures o.request == SignOut
  {
    Outcome(m, SignOut)
  }

  /** The "BeThere" brand button goes home. */
  function ChooseBrand(m: Menu): (o: Outcome)
    ensures o.menu == m
    ensures o.request == GoTo("/")
  {
    Outcome(m, GoTo("/"))
  }
}

=== FILE: seqs.dfy ===
/**
 The list operations the pages are built from: JavaScript's `Array.prototype.filter`
 (a stable filter) and the subsequence relation that describes what a stable filter
 returns.
 */
module Seqs {

  /** `a` is obtained from `b` by deleting zero or more elements, without reordering. */
  predicate IsSubsequence<T(==)>(a: seq<T>, b: seq<T>)
    decreases |b|
  {
    || |a| == 0
    || (&& |b| > 0
        && (|| (a[0] == b[0] && IsSubsequence(a[1..], b[1..]))
            || IsSubsequence(a, b[1..])))
  }

  /** A subsequence never holds more copies of any element than the sequence it came from. */
  lemma {:induction false} SubsequenceMultiset<T>(a: seq<T>, b: seq<T>)
    requires IsSubsequence(a, b)
    ensures multiset(a) <= multiset(b)
    ensures |a| <= |b|
    decreases |b|
  {
    if |a| > 0 {
      assert b == [b[0]] + b[1..];
      if a[0] == b[0] && IsSubsequence(a[1..], b[1..]) {
        SubsequenceMultiset(a[1..], b[1..]);
        assert a == [a[0]] + a[1..];
      } else {
        SubsequenceMultiset(a, b[1..]);
      }
    }
  }

  /** The elements of `s` satisfying `p`, in their original order. */
  function Filter<T(!new)>(p: T -> bool, s: seq<T>): (r: seq<T>)
    ensures |r| <= |s|
    ensures IsSubsequence(r, s)
    ensures forall i :: 0 <= i < |r| ==> p(r[i])
    ensures forall x :: multiset(r)[x] == if p(x) then multiset(s)[x] else 0
    decreases |s|
  {
    if |s| == 0 then
      []
    else
      assert s == [s[0]] + s[1..];
      if p(s[0]) then [s[0]] + Filter(p, s[1..]) else Filter(p, s[1..])
  }

  /** An element is kept exactly when it occurs in `s` and passes the test. */
  lemma FilterMembers<T(!new)>(p: T -> bool, s: seq<T>)
    ensures forall x :: x in Filter(p, s) <==> x in s && p(x)
  {
    var r := Filter(p, s);
    forall x ensures x in r <==> x in s && p(x) {
      assert x in r <==> x in multiset(r);
      assert x in s <==> x in multiset(s);
    }
  }

  /**
   The contract of Filter pins its result down: the only subsequence of `s`
   holding exactly the `p`-elements of `s`, with their multiplicities, is Filter(p, s).
   */
  lemma {:induction false} FilterUnique<T(!new)>(p: T -> bool, s: seq<T>, r: seq<T>)
    requires IsSubsequence(r, s)
    requires forall x :: multiset(r)[x] == if p(x) then multiset(s)[x] else 0
    ensures r == Filter(p, s)
    decreases |s|
  {
    if |s| == 0 {
      assert |r| == 0;
    } else {
      var h, t := s[0], s[1..];
      assert s == [h] + t;
      if p(h) {
        assert multiset(r)[h] == multiset(s)[h] == multiset(t)[h] + 1;
        assert h in r;
        if r[0] == h && IsSubsequence(r[1..], t) {
          assert r == [h] + r[1..];
          FilterUnique(p, t, r[1..]);
        } else {
          SubsequenceMultiset(r, t);
          assert false;
        }
      } else {
        assert multiset(r)[h] == 0;
        if |r| > 0 {
          assert r[0] in r;
          assert r[0] != h;
        }
        FilterUnique(p, t, r);
      }
    }
  }

  /** Filtering changes nothing when every element already passes. */
  lemma {:induction false} FilterKeepsAll<T(!new)>(p: T -> bool, s: seq<T>)
    requires forall i :: 0 <= i < |s| ==> p(s[i])
    ensures Filter(p, s) == s
    decreases |s|
  {
    if |s| > 0 {
      FilterKeepsAll(p, s[1..]);
    }
  }

  /** Filtering twice with the same test is filtering once. */
  lemma {:induction false} FilterIdempotent<T(!new)>(p: T -> bool, s: seq<T>)
    ensures Filter(p, Filter(p, s)) == Filter(p, s)
  {
    FilterKeepsAll(p, Filter(p, s));
  }

  /** Two tests that agree on every element of `s` filter `s` alike. */
  lemma {:induction false} FilterAgreeing<T(!new)>(p: T -> bool, q: T -> bool, s: seq<T>)
    requires forall i :: 0 <= i < |s| ==> p(s[i]) == q(s[i])
    ensures Filter(p, s) == Filter(q, s)
    decreases |s|
  {
    if |s| > 0 {
      FilterAgreeing(p, q, s[1..]);
    }
  }

  /** A stricter test keeps a subsequence of what a looser test keeps. */
  lemma {:induction false} FilterMonotone<T(!new)>(p: T -> bool, q: T -> bool, s: seq<T>)
    requires forall i :: 0 <= i < |s| ==> p(s[i]) ==> q(s[i])
    ensures IsSubsequence(Filter(p, s), Filter(q, s))
    decreases |s|
  {
    if |s| > 0 {
      FilterMonotone(p, q, s[1..]);
      var fp, fq := Filter(p, s[1..]), Filter(q, s[1..]);
      if p(s[0]) {
        assert Filter(p, s) == [s[0]] + fp && Filter(q, s) == [s[0]] + fq;
        assert ([s[0]] + fp)[1..] == fp && ([s[0]] + fq)[1..] == fq;
      } else if q(s[0]) {
        assert Filter(p, s) == fp && Filter(q, s) == [s[0]] + fq;
        assert ([s[0]] + fq)[1..] == fq;
      }
    }
  }

  /** One step of counting with Filter: the head contributes one exactly when it passes. */
  lemma FilterLengthStep<T(!new)>(p: T -> bool, s: seq<T>)
    requires |s| > 0
    ensures |Filter(p, s)| == (if p(s[0]) then 1 else 0) + |Filter(p, s[1..])|
  {
  }

  /** Filtering by a stricter test after a looser one is filtering by the stricter test alone. */
  lemma {:induction false} FilterNested<T(!new)>(p: T -> bool, q: T -> bool, s: seq<T>)
    requires forall i :: 0 <= i < |s| ==> p(s[i]) ==> q(s[i])
    ensures Filter(p, Filter(q, s)) == Filter(p, s)
    decreases |s|
  {
    if |s| > 0 {
      FilterNested(p, q, s[1..]);
      if q(s[0]) {
        assert Filter(q, s) == [s[0]] + Filter(q, s[1..]);
        assert Filter(q, s)[1..] == Filter(q, s[1..]);
      }
    }
  }

  /** Filtering a concatenation filters each part. */
  lemma {:induction false} FilterConcat<T(!new)>(p: T -> bool, a: seq<T>, b: seq<T>)
    ensures Filter(p, a + b) == Filter(p, a) + Filter(p, b)
    decreases |a|
  {
    if |a| == 0 {
      assert a + b == b;
    } else {
      assert (a + b)[0] == a[0] && (a + b)[1..] == a[1..] + b;
      FilterConcat(p, a[1..], b);
    }
  }

  /** Nothing is kept exactly when nothing passes, and everything exactly when everything does. */
  lemma {:induction false} FilterNoneOrAll<T(!new)>(p: T -> bool, s: seq<T>)
    ensures |Filter(p, s)| == 0 <==> forall x :: x in s ==> !p(x)
    ensures |Filter(p, s)| == |s| <==> forall x :: x in s ==> p(x)
    decreases |s|
  {
    if |s| > 0 {
      FilterLengthStep(p, s);
      FilterNoneOrAll(p, s[1..]);
      assert forall x :: x in s <==> x == s[0] || x in s[1..];
    }
  }
}

=== FILE: text.dfy ===
/**
 The two string operations the event search uses: `toLowerCase` and `includes`.
 Lower-casing is modelled on ASCII only: the capitals 'A'..'Z' become 'a'..'z' and
 every other character is kept as it is.
 */
module Text {

  predicate IsUpper(c: char) {
    'A' <= c <= 'Z'
  }

  /** A string with no ASCII capital in it. */
  predicate IsLowerCase(s: string) {
    forall i :: 0 <= i < |s| ==> !IsUpper(s[i])
  }

  function LowerChar(c: char): char {
    if IsUpper(c) then (c as int - 'A' as int + 'a' as int) as char else c
  }

  /** `s.toLowerCase()` on ASCII. */
  function Lower(s: string): (r: string)
    ensures |r| == |s|
    ensures IsLowerCase(r)
    ensures forall i :: 0 <= i < |s| && !IsUpper(s[i]) ==> r[i] == s[i]
    ensures forall i :: 0 <= i < |s| && IsUpper(s[i]) ==> r[i] as int == s[i] as int + 32
  {
    seq(|s|, i requires 0 <= i < |s| => LowerChar(s[i]))
  }

  /** A lower-case string is its own lower-case form. */
  lemma LowerOfLowerCase(s: string)
    requires IsLowerCase(s)
    ensures Lower(s) == s
  {
    assert forall i :: 0 <= i < |s| ==> Lower(s)[i] == s[i];
  }

  /** Lower-casing twice is lower-casing once. */
  lemma LowerIdempotent(s: string)
    ensures Lower(Lower(s)) == Lower(s)
  {
    LowerOfLowerCase(Lower(s));
  }

  /** `needle` occurs in `hay` starting at position `i`. */
  predicate OccursAt(hay: string, needle: string, i: int) {
    0 <= i && i + |needle| <= |hay| && hay[i..i + |needle|] == needle
  }

  /** An occurrence that does not start at position 0 is an occurrence in the tail. */
  lemma OccursInTail(hay: string, needle: string)
    requires |hay| > 0 && !OccursAt(hay, needle, 0)
    ensures (exists i :: OccursAt(hay, needle, i)) <==> (exists j :: OccursAt(hay[1..], needle, j))
  {
    if i :| OccursAt(hay, needle, i) {
      assert hay[1..][i - 1..i - 1 + |needle|] == hay[i..i + |needle|];
      assert OccursAt(hay[1..], needle, i - 1);
    }
    if j :| OccursAt(hay[1..], needle, j) {
      assert hay[1..][j..j + |needle|] == hay[j + 1..j + 1 + |needle|];
      assert OccursAt(hay, needle, j + 1);
    }
  }

  /** `hay.includes(needle)`: `needle` occurs somewhere in `hay`. */
  function Includes(hay: string, needle: string): (b: bool)
    ensures b <==> exists i :: OccursAt(hay, needle, i)
    decreases |hay|
  {
    if |needle| <= |hay| && hay[..|needle|] == needle then
      assert OccursAt(hay, needle, 0);
      true
    else if |hay| == 0 then
      false
    else
      OccursInTail(hay, needle);
      Includes(hay[1..], needle)
  }

  /** Every string includes the empty string. */
  lemma IncludesEmpty(hay: string)
    ensures Includes(hay, "")
  {
    assert OccursAt(hay, "", 0);
  }

  /** Case-insensitive inclusion: both sides lower-cased, as the search does. */
  predicate IncludesIgnoringCase(hay: string, needle: string) {
    Includes(Lower(hay), Lower(needle))
  }

  /** Lower-casing the query first does not change a case-insensitive match. */
  lemma IgnoringCaseOfLowered(hay: string, needle: string)
    ensures IncludesIgnoringCase(hay, Lower(needle)) == IncludesIgnoringCase(hay, needle)
  {
    LowerIdempotent(needle);
  }
}
